=== FILE: README.md ===
# Bulkwala backend: fallback catalogue, flash offer, subcategories, OTP gating, cookie options

A Dafny model of the parts of this e-commerce backend that make decisions. Everything
else in the repository is glue to MongoDB or to provider SDKs. Each handler becomes a
pure function from the request, the configuration, the store, the clock and the oracles
to a reply and the store after the call.

- `wrappers.dfy` (`Wrappers`): `Option` stands for `undefined`/`null`. `Attempt` is a call that returns a value or throws.
- `js.dfy` (`Js`): the JavaScript built-ins the code relies on, with JavaScript's semantics. These are truthiness, the `x || d` default, `startsWith`, `includes`, `toLowerCase` on the ASCII letters and `Array.prototype.slice`, including negative indices.
- `seqs.dfy` (`Seqs`): `Array.prototype.filter`, `find` and `findIndex` over sequences, with their order, membership and multiplicity properties.
- `http.dfy` (`Http`): a handler either responds with an `ApiResponse` envelope and a status, or raises an exception that `asyncHandler` passes on. It also holds the `MONGO_URI` configuration gate.
- `catalog.dfy` (`MockCatalog`): `src/utils/dbHandler.js`. This covers the mock products and categories, `safeDbOperation`, `getMockProducts` and the two slug lookups.
- `offer.dfy` (`FlashOffer`): `src/controllers/offer.controller.js`. The 15-minute offer is upserted on the empty filter and expires lazily when read. The offers collection is a sequence, and the model proves that the handlers, called one at a time, keep it to at most one document.
- `subcategory.dfy` (`Subcategories`): `src/controllers/subcategory.controller.js`. It models create, list, get, update, soft-delete and restore over an abstract store of subcategory and category records.
- `sms.dfy` (`Sms`): `src/utils/sms.js`. It models the decision taken before any Twilio Verify call, the `+91` destination, and how the provider's answer or error becomes the result.
- `constants.dfy` (`Constants`): `getCookieOptions` and the enumerated value lists.

Conventions:

- Prices are integer cents, so 599.99 is `59999`.
- Page, limit and price bounds arrive already parsed as optional integers. Price bounds are in cents too, so a query `minPrice=500` is `Some(50000)`.
- The clock (`now`, in milliseconds) is an input.
- Which store operation throws is an input: `Fault` for offers, `storeFails` for subcategories.
- These are oracles: slug generation, image upload, the id a new record gets, the signed-in user and the SMS provider.

Behaviours a reader might not expect, which the model keeps as the code has them:

- An offer is still served at the instant `now == expiresAt`. The code treats it as expired only when `expiresAt < now`.
- When the offer store throws, `startOffer` answers 200 `{isActive: false}`. It does not report a failure.
- With no database configured, the subcategory write handlers answer 200 with `data = null`.
- A missing subcategory asked for by slug does not produce a 404 (see Findings).

## Model

| member | source | states |
|---|---|---|
| `MockCatalog.MockCatalogueIsCoherent` | src/utils/dbHandler.js:7-153 | every mock product's category is a mock category (same id, name and slug), and its subcategory is listed under that category |
| `MockCatalog.SafeDbOperation` | src/utils/dbHandler.js:162-170 | the operation's value when it succeeds, exactly the mock data when it throws |
| `MockCatalog.FilteredIsSelection` | src/utils/dbHandler.js:179-208 | the four successive filters keep exactly the products that meet every supplied filter, in catalogue order. The filters: category by id or slug, subcategory by id or slug, lower-cased search in title, description or a tag, and inclusive bounds on `discountPrice || price`. A bound applies only when it is truthy, and the model tests truthiness on the parsed bound (see "## Left out") |
| `Seqs.FilterKeepsOrderAndMultiplicity` | src/utils/dbHandler.js:179-208 | each filter keeps catalogue order and keeps every selected product as often as the catalogue holds it |
| `Js.IncludesIffOccurs` | src/utils/dbHandler.js:194-196 | `includes` holds exactly when the term occurs at some position of the text |
| `MockCatalog.SearchIgnoresCase` | src/utils/dbHandler.js:191-198 | a search term and its lower-case form give the same answer |
| `MockCatalog.GetMockProducts` | src/utils/dbHandler.js:175-223 | the answer is the requested page of the mock products that meet every supplied filter. Every returned product is a mock product that meets them, and `total` counts all of them |
| `MockCatalog.QueryIsPageOfMatching` | src/utils/dbHandler.js:175-223 | a query is the pagination of exactly the matching products |
| `MockCatalog.PaginateDefaults` | src/utils/dbHandler.js:210-222 | `page` defaults to 1 and `limit` to 10 when absent or zero, so neither is ever 0. `total` is the count before paging |
| `MockCatalog.PaginateBounds` | src/utils/dbHandler.js:210-220 | a page holds only filtered items, at most `total` of them, and at most `limit` when `limit` is positive. This holds for negative pages too, because `slice` is modelled with negative indices |
| `MockCatalog.PaginatePositive` | src/utils/dbHandler.js:211-215 | for page ≥ 1 and limit ≥ 1 the page is exactly `filtered[skip .. skip+limit]` with `skip = (page-1)*limit`, cut at the end |
| `MockCatalog.QueryReturnsOnlySelected` | src/utils/dbHandler.js:175-223 | every returned product is in the catalogue and meets every filter. `total` counts all matches. A page holds at most `total` products and at most a positive `limit` |
| `MockCatalog.NoFiltersReturnsWholeCatalogue` | src/utils/dbHandler.js:175-223 | with no filters and default paging, all three mock products come back in order, with total 3, page 1 and limit 10 |
| `MockCatalog.ElectronicsFromFiveHundred` | src/utils/dbHandler.js:179-208 | category `electronics` with a minimum of 500.00 returns only the laptop, with total 1. The smartphone's effective price is 499.99 |
| `MockCatalog.MockProductBySlug` | src/utils/dbHandler.js:235-237 | a product with exactly that slug, or none exactly when no mock product has it |
| `MockCatalog.MockCategoryBySlug` | src/utils/dbHandler.js:242-244 | a category with exactly that slug, or none exactly when no mock category has it |
| `MockCatalog.ProductSlugRoundTrip` | src/utils/dbHandler.js:235-237 | looking up any mock product by its own slug finds that very product |
| `MockCatalog.CategorySlugRoundTrip` | src/utils/dbHandler.js:242-244 | looking up any mock category by its own slug finds that very category |
| `Http.DbConfigured` | src/controllers/offer.controller.js:18 | the database counts as configured iff `MONGO_URI` is present and not the empty string. offer.controller.js:45 and :75 and subcategory.controller.js:45, 111, 147, 188, 246 and 274 use the same test |
| `FlashOffer.StartOffer` | src/controllers/offer.controller.js:7-40 | a missing or zero discount field raises 400 before the database gate, and the store is untouched. Otherwise the status is 200. The reply carries an offer iff the database is configured and the upsert succeeds. That offer is active, has the given fields and `expiresAt = now + 900000`, replaces the first document and leaves the rest untouched. With both fields given, an unconfigured database or a throwing store answers `{isActive:false}` and leaves the store as it was |
| `FlashOffer.GetActiveOffer` | src/controllers/offer.controller.js:43-70 | always 200. The stored offer is served iff the database is configured, the read succeeds, an offer exists, it is active and `expiresAt` is not before `now`. Otherwise the reply is `{isActive:false}`, and with a working store the stored `isActive` becomes false. Without a database, or when the read or the `isActive = false` save throws, the store is unchanged. Nothing else changes |
| `FlashOffer.DeleteOffer` | src/controllers/offer.controller.js:73-86 | always 200 with `{}`. The store is emptied iff the database is configured and `deleteMany` succeeds; otherwise it is unchanged |
| `FlashOffer.HandlersKeepSingleton` | src/controllers/offer.controller.js:23-33 | for calls run one after another, all three handlers keep at most one offer document, and a successful start leaves exactly one |
| `FlashOffer.RestartOverwrites` | src/controllers/offer.controller.js:23-33 | starting a second time leaves a single offer with the second start's fields, never a duplicate |
| `FlashOffer.OfferLifecycle` | src/controllers/offer.controller.js:23-61 | a started offer is served up to and including `start + 900000`. After that the first read answers `{isActive:false}` and persists `isActive = false` |
| `FlashOffer.ReadIsIdempotent` | src/controllers/offer.controller.js:50-58 | a second read at the same instant changes nothing and answers the same |
| `FlashOffer.DeleteThenRead` | src/controllers/offer.controller.js:79-86 | after a successful delete, every read answers `{isActive:false}`, even if the store throws |
| `FlashOffer.UnconfiguredIsInert` | src/controllers/offer.controller.js:18-76 | without a database (`MONGO_URI` missing or empty), starting and reading both answer 200 `{isActive:false}` and create nothing, and deleting answers 200 `{}` and removes nothing |
| `Subcategories.CreateSubcategory` | src/controllers/subcategory.controller.js:43-107 | without a database: 200 with `data = null`, store untouched. Otherwise 201 iff the store works, no live record holds the slug, the parent category exists and is live, an image is given and the upload succeeds. Every other case is 500 with the store untouched. On success the new record is appended live with the uploaded URL, and its id is appended to the parent's list; other categories are unchanged |
| `Subcategories.GetSubcategories` | src/controllers/subcategory.controller.js:109-143 | always 200. Without a database, or when the store throws, the reply is the mock list. Otherwise it is exactly the live records, restricted to the given category when one is given |
| `Subcategories.ListKeepsOrder` | src/controllers/subcategory.controller.js:118-126 | the list keeps the store's order |
| `Subcategories.GetSingleSubcategory` | src/controllers/subcategory.controller.js:145-184 | without a database: `mockSubcategories[0]`, whatever the slug. A live record with the slug is served. Any miss or store error ends in a raised error |
| `Subcategories.SingleMissRaisesReferenceError` | src/controllers/subcategory.controller.js:151-173 | with a database configured, every slug that no live record has, and every store error, raises a ReferenceError on `slug`: neither the mock record nor the 404 the handler throws comes back |
| `Subcategories.GetSingleSubcategoryIntended` | src/controllers/subcategory.controller.js:168-183 | the catch path as intended. It agrees with the handler when there is no database or on a hit |
| `Subcategories.IntendedMissIsMockOrNotFound` | src/controllers/subcategory.controller.js:172-182 | in the intended catch path a miss is the mock record with that exact slug. It is a 404 exactly when no mock record has the slug |
| `Subcategories.UpdateSubcategory` | src/controllers/subcategory.controller.js:186-242 | without a database: 200, store untouched. Otherwise 200 iff the store works, a live record has the slug, a given category is live and a given file uploads; every other case is 500 with no change. On success only `name` (if a truthy name is given), `category` (if given) and `img_url` (if a file is given) change. Every other field, every other record and the categories stay as they were |
| `Subcategories.DeleteSubcategory` | src/controllers/subcategory.controller.js:244-270 | without a database: 200, store untouched. The first live record with the slug gets `isDeleted = true`, `deletedAt = now` and `deletedBy = user`, and the reply is 200. With no live record, or a store error, the reply is 500 with no change |
| `Subcategories.RestoreSubcategory` | src/controllers/subcategory.controller.js:272-300 | without a database: 200, store untouched. The first deleted record with the slug gets `isDeleted = false` and `deletedAt = deletedBy = null`, and is returned with 200. With no deleted record, or a store error, the reply is 500 with no change |
| `Subcategories.DeleteThenRestore` | src/controllers/subcategory.controller.js:253-289 | delete then restore of the same slug brings the record back live with name, slug, category and image unchanged. A record never deleted before comes back exactly, leaving the store as it was. This needs no older deleted record with the slug |
| `Subcategories.CreateThenRead` | src/controllers/subcategory.controller.js:87-102 | a created subcategory is served by its slug and appears in the unfiltered list |
| `Subcategories.CreateKeepsLiveSlugsUnique` | src/controllers/subcategory.controller.js:56-59 | for calls run one after another, create never gives two live records the same slug |
| `Subcategories.UpdateKeepsLiveSlugsUnique` | src/controllers/subcategory.controller.js:196-231 | update never gives two live records the same slug |
| `Subcategories.DeleteKeepsLiveSlugsUnique` | src/controllers/subcategory.controller.js:253-261 | delete never gives two live records the same slug |
| `Subcategories.RestoreCanDuplicateLiveSlug` | src/controllers/subcategory.controller.js:281-289 | restore does not check slugs. Restoring a record whose slug a newer live record holds leaves two live records with that slug |
| `Sms.ClientConfigured` | src/utils/sms.js:6-13 | the Twilio client exists iff the account id is present and starts with `AC`, and the auth token is present and non-empty |
| `Sms.ServiceSidProblem` | src/utils/sms.js:26-35 | the service id passes iff it is present and starts with `VA`. A missing id and a malformed id are reported with their distinct messages |
| `Sms.Destination` | src/utils/sms.js:44 | the destination is `+91` followed by the phone number |
| `Sms.SendPlan` | src/utils/sms.js:18-46 | without a client the result is `"pending"`, and the service id is not checked. The provider is called iff the client is configured and the service id is valid, with the service id, `+91` + phone and channel `sms`. A bad service id with a client raises |
| `Sms.SendOtpSms` | src/utils/sms.js:18-60 | `"pending"` without a client. The service-id error with a client and a bad id. Otherwise the provider's status, or the provider's error re-raised under the send-failure message |
| `Sms.VerifyPlan` | src/utils/sms.js:62-91 | without a client, a non-empty OTP is accepted. The provider is asked to check the code iff the client is configured and the service id is valid, and it is asked about `+91` + phone |
| `Sms.VerifyOtpSms` | src/utils/sms.js:62-105 | without a client, the answer is whether the OTP is non-empty. A configured client with a bad service id raises that id's error. Otherwise the answer is `true` exactly when the provider's status is `"approved"`, any other status gives `false`, and a provider error is re-raised with the verify-failure prefix |
| `Sms.VerifyAcceptsIff` | src/utils/sms.js:62-105 | the result is `true` iff there is no client and the OTP is non-empty, or everything is configured and the provider answers `"approved"`. A provider error is always re-raised, never a result |
| `Sms.ProviderOnlyWhenConfigured` | src/utils/sms.js:18-35 | without a configured client and a valid service id, both results are the same whatever the provider would do |
| `Constants.GetCookieOptions` | src/utils/constant.js:2-16 | `secure` iff `NODE_ENV` is `production`. `sameSite` is `None` in production and `Lax` otherwise. `httpOnly` is always set, `path` is `/`, and `maxAge` is 604800000 ms (7 days) |
| `Constants.SameSiteNoneIsSecure` | src/utils/constant.js:7-12 | `sameSite = None` always comes with `secure`, and `sameSite` is `None` or `Lax` |
| `Constants.ValueListsAreDistinct` | src/utils/constant.js:18-53 | 3 distinct user roles, 6 distinct payment modes including `pickup`, and 4 distinct order and 4 distinct payment statuses |

## Left out

- Logging, the HTTP framework, `asyncHandler` and the error middleware are left out. A raised exception is a `Raise` reply, because the status the middleware picks is not part of this code.
- Mongoose is left out: `populate`, casting of ids, schema defaults and validation. Stores are sequences searched first-match in natural order. A new subcategory is assumed to start with `isDeleted = false` and no deletion stamp.
- Handlers are modelled as running one at a time. Requests interleaving at their `await`s are not modelled. Two `createSubCategory` calls with the same slug can both pass the check at subcategory.controller.js:56-59 before either inserts at :87, and two `startOffer` upserts on an empty collection can both insert. So slug uniqueness and the single offer are proved only for sequential calls.
- Partial writes are left out. `createSubCategory` stores the record before saving the parent category. The model treats each handler's store work as atomic: a failing store writes nothing.
- `generateUniqueSlug`, `slugify`, the upload file name (time, `uuid`, base64) and `imagekit.upload` are opaque `Services`. An unconfigured image host is an upload that throws.
- `Number(...)` parsing is left out, and so are non-integer page and limit values and fractional prices. Inputs are already-parsed integers and prices are cents.
- `MockCatalog.SearchHits` lower-cases only the ASCII letters. JavaScript's `toLowerCase` also maps non-ASCII letters.
- The `createdAt`/`updatedAt` dates of the mock records are left out. `deletedAt` and `startedAt` are the input clock reading.
- `safeDbOperation`'s `operationName` is left out: it only labels a log line.
- `MockCatalog.FilteredIsSelection`: the price bounds are tested for truthiness after parsing, while `getMockProducts` tests the raw query value. A query-string `maxPrice` of `"0"` is truthy, so JavaScript keeps only products priced at most 0, which is none of them. The model's `Some(0)` is falsy and keeps every product. `Filters` holds already-parsed integers, so the raw text is not modelled.
- `MockCatalog.GetMockProducts`: the same difference applies, because it is built from `MockCatalog.FilteredIsSelection`'s filters.
- `FlashOffer.StartOffer`: the required-field check `!discountPercent || !maxDiscountAmount` is applied to the parsed integer, not the raw request body. A string `"0"` passes the source's check, while the model's `Some(0)` is rejected with 400. A fractional `discountPercent` or `maxDiscountAmount` cannot be represented, because both are `int`.
- `Sms.VerifyOtpSms`: JavaScript returns the falsy OTP itself (`""` or `undefined`) when it rejects an OTP without a client. The model returns `false`.
- `Sms.VerifyPlan`: JavaScript returns the falsy OTP itself (`""` or `undefined`) when it rejects an OTP without a client. The model returns `false`.
- The Twilio client is created once, at module load, from the account id and token, while the service id is read at each call. The model takes one snapshot of all three.
- `src/utils/email.js` is left out. It is a Resend SDK call whose only decision is "unconfigured → true, error → false".
- `src/utils/imagekit.js` and `src/utils/razorpay.js` are left out. They only build a client when every key is present.
- `src/db/db.js`, `src/index.js`, `createAdmin.js` and `testPassword.js` are connection, startup and script I/O, so they are left out.
- The filters work on a copy of the catalogue. In this model every value is immutable, so "the catalogue is never mutated" holds by construction and needs no lemma.

## Findings

| source | as written | input that shows it | evidently intended | confidence | as-written member | corrected member |
|---|---|---|---|---|---|---|
| src/controllers/subcategory.controller.js:152-173 | the catch block looks up `mockSubcategories.find(sub => sub.slug === slug)`. But `slug` is a `const` declared inside the `try` block, so it is not in scope there, and the lookup raises a ReferenceError | database configured, store up, slug `no-such-slug` that no record has. The 404 thrown in the `try` is caught, and the catch then fails on `slug` | on a miss or store error, serve the mock subcategory with that slug, else raise 404 "Subcategory not found" | high (not executed) | `Subcategories.SingleMissRaisesReferenceError` | `Subcategories.IntendedMissIsMockOrNotFound` |

=== FILE: catalog.dfy ===
/**
 The mock catalogue served when the database cannot be reached
 (src/utils/dbHandler.js): the fixed products and categories, the
 fallback wrapper around a database operation, and the product query
 that filters by category, subcategory, search text and price, then
 paginates. Prices are integer cents (599.99 is 59999); query numbers
 arrive already parsed.
 */
module MockCatalog {
  import opened Wrappers
  import opened Js
  import opened Seqs

  /** An embedded `{_id, name, slug}` reference to a category or subcategory. */
  datatype Ref = Ref(id: string, name: string, slug: string)

  datatype Product = Product(
    id: string,
    title: string,
    slug: string,
    description: string,
    price: int,
    discountPrice: int,
    stock: nat,
    category: Ref,
    subcategory: Ref,
    images: seq<string>,
    videos: seq<string>,
    tags: seq<string>,
    isActive: bool,
    isFeatured: bool,
    sku: string,
    color: seq<string>,
    genericName: string,
    countryOfOrigin: string,
    manufacturerName: string,
    createdBy: string,
    gstSlab: nat)

  datatype Category = Category(
    id: string,
    name: string,
    slug: string,
    imgUrl: string,
    banner: seq<string>,
    subcategories: seq<Ref>)

  const Electronics := Ref("mock-category-1", "Electronics", "electronics")
  const Clothing := Ref("mock-category-2", "Clothing", "clothing")
  const MobilePhones := Ref("mock-subcategory-1", "Mobile Phones", "mobile-phones")
  const Laptops := Ref("mock-subcategory-2", "Laptops", "laptops")
  const TShirts := Ref("mock-subcategory-3", "T-Shirts", "t-shirts")
  const Jeans := Ref("mock-subcategory-4", "Jeans", "jeans")

  const Smartphone := Product(
    "mock-product-1", "Smartphone XYZ", "smartphone-xyz", "Latest smartphone with advanced features",
    59999, 49999, 25, Electronics, MobilePhones, [], [], ["smartphone", "mobile", "electronics"],
    true, true, "SP-XYZ-001", ["Black", "White"], "Smartphone", "China", "TechCorp", "mock-admin-id", 18)

  const Laptop := Product(
    "mock-product-2", "Laptop ABC", "laptop-abc", "High-performance laptop for professionals",
    129999, 119999, 15, Electronics, Laptops, [], [], ["laptop", "computer", "electronics"],
    true, true, "LP-ABC-001", ["Silver", "Black"], "Laptop", "USA", "CompTech", "mock-admin-id", 18)

  const TShirt := Product(
    "mock-product-3", "T-Shirt Premium", "t-shirt-premium", "Comfortable cotton t-shirt",
    2999, 2499, 100, Clothing, TShirts, [], [], ["clothing", "t-shirt", "cotton"],
    true, false, "TS-PRM-001", ["Red", "Blue", "Green"], "T-Shirt", "India", "FashionHub", "mock-seller-id", 12)

  /** `mockProducts`, in catalogue order. */
  const MockProducts: seq<Product> := [Smartphone, Laptop, TShirt]

  /** `mockCategories`, which `getMockCategories` returns as is. */
  const MockCategories: seq<Category> := [
    Category("mock-category-1", "Electronics", "electronics",
      "https://ik.imagekit.io/bulkwala/Banner/Electronics.png", [], [MobilePhones, Laptops]),
    Category("mock-category-2", "Clothing", "clothing",
      "https://ik.imagekit.io/bulkwala/Banner/Clothing.png", [], [TShirts, Jeans])
  ]

  /** Every mock product names a mock category by its id, name and slug, and a
      subcategory listed under that category, so mock data keeps the shape of real data. */
  lemma MockCatalogueIsCoherent()
    ensures forall p :: p in MockProducts ==>
      exists c :: c in MockCategories && Ref(c.id, c.name, c.slug) == p.category && p.subcategory in c.subcategories
  {
    assert Ref(MockCategories[0].id, MockCategories[0].name, MockCategories[0].slug) == Electronics;
    assert Ref(MockCategories[1].id, MockCategories[1].name, MockCategories[1].slug) == Clothing;
  }

  // ---------------------------------------------------------------------------
  // safeDbOperation

  /** `safeDbOperation`: the operation's value, or the mock data when it throws. The
      operation name only labels a log line and is not modelled. */
  function SafeDbOperation<T>(operation: Attempt<T>, mockData: T): (r: T)
    ensures operation.Ok? ==> r == operation.value
    ensures operation.Threw? ==> r == mockData
  {
    match operation
    case Ok(v) => v
    case Threw(_) => mockData
  }

  // ---------------------------------------------------------------------------
  // getMockProducts

  /** The query string of a product listing; an absent or empty entry imposes nothing. */
  datatype Filters = Filters(
    category: Option<string>,
    subcategory: Option<string>,
    search: Option<string>,
    minPrice: Option<int>,
    maxPrice: Option<int>,
    page: Option<int>,
    limit: Option<int>)

  const NoFilters := Filters(None, None, None, None, None, None, None)

  /** `{products, total, page, limit}`. */
  datatype ProductPage = ProductPage(products: seq<Product>, total: nat, page: int, limit: int)

  const DefaultPage := 1
  const DefaultLimit := 10

  /** A category or subcategory reference is named by its id or by its slug. */
  predicate RefMatches(r: Ref, key: string) {
    r.id == key || r.slug == key
  }

  /** `p.discountPrice || p.price`: the discounted price unless it is zero. */
  function EffectivePrice(p: Product): int {
    if p.discountPrice != 0 then p.discountPrice else p.price
  }

  /** Some tag of the product contains the (already lower-cased) term, ignoring case. */
  predicate SomeTagIncludes(tags: seq<string>, term: string) {
    exists t :: t in tags && Includes(ToLower(t), term)
  }

  /** The (already lower-cased) term occurs in the title, the description or a tag, ignoring case. */
  predicate SearchHits(p: Product, term: string) {
    Includes(ToLower(p.title), term) || Includes(ToLower(p.description), term) || SomeTagIncludes(p.tags, term)
  }

  function CategoryMatch(key: string): Product -> bool {
    (p: Product) => RefMatches(p.category, key)
  }

  function SubcategoryMatch(key: string): Product -> bool {
    (p: Product) => RefMatches(p.subcategory, key)
  }

  function SearchMatch(term: string): Product -> bool {
    (p: Product) => SearchHits(p, term)
  }

  /** The price test: each bound applies only when it is truthy. */
  function PriceMatch(f: Filters): Product -> bool {
    (p: Product) => (!NumberTruthy(f.minPrice) || EffectivePrice(p) >= f.minPrice.value)
      && (!NumberTruthy(f.maxPrice) || EffectivePrice(p) <= f.maxPrice.value)
  }

  /** The four filters of `getMockProducts`, applied one after another as the source does. */
  function Filtered(catalog: seq<Product>, f: Filters): seq<Product> {
    var byCategory :=
      if StringTruthy(f.category) then Filter(catalog, CategoryMatch(f.category.value)) else catalog;
    var bySubcategory :=
      if StringTruthy(f.subcategory) then Filter(byCategory, SubcategoryMatch(f.subcategory.value)) else byCategory;
    var bySearch :=
      if StringTruthy(f.search) then Filter(bySubcategory, SearchMatch(ToLower(f.search.value))) else bySubcategory;
    if NumberTruthy(f.minPrice) || NumberTruthy(f.maxPrice) then Filter(bySearch, PriceMatch(f)) else bySearch
  }

  /** The pagination step: `page` and `limit` default to 1 and 10 when absent or
      zero, `skip = (page - 1) * limit`, and `total` counts the items before paging. */
  function Paginate(items: seq<Product>, pageArg: Option<int>, limitArg: Option<int>): ProductPage {
    var page := NumberOr(pageArg, DefaultPage);
    var limit := NumberOr(limitArg, DefaultLimit);
    var skip := Skip(page, limit);
    ProductPage(Slice(items, skip, skip + limit), |items|, page, limit)
  }

  /** `(page - 1) * limit`, the number of items before the page. */
  function Skip(page: int, limit: int): (s: int)
    ensures page >= 1 && limit >= 0 ==> s >= 0
  {
    (page - 1) * limit
  }

  /** `getMockProducts` over a given catalogue: filter, then paginate. */
  function QueryProducts(catalog: seq<Product>, f: Filters): ProductPage {
    Paginate(Filtered(catalog, f), f.page, f.limit)
  }

  /** `getMockProducts` itself, over the fixed mock products: the requested page of the
      mock products that meet every supplied filter, with `total` counting all of them. */
  function GetMockProducts(f: Filters): (r: ProductPage)
    ensures r == Paginate(Matching(MockProducts, f), f.page, f.limit)
    ensures forall x :: x in r.products ==> x in MockProducts && Selected(x, f)
    ensures r.total == |Matching(MockProducts, f)|
  {
    QueryIsPageOfMatching(MockProducts, f);
    QueryReturnsOnlySelected(MockProducts, f);
    QueryProducts(MockProducts, f)
  }

  /** The reference meaning of the filters: a product is selected when it meets
      every filter that is supplied. */
  predicate Selected(p: Product, f: Filters) {
    && (StringTruthy(f.category) ==> RefMatches(p.category, f.category.value))
    && (StringTruthy(f.subcategory) ==> RefMatches(p.subcategory, f.subcategory.value))
    && (StringTruthy(f.search) ==> SearchHits(p, ToLower(f.search.value)))
    && (NumberTruthy(f.minPrice) ==> EffectivePrice(p) >= f.minPrice.value)
    && (NumberTruthy(f.maxPrice) ==> EffectivePrice(p) <= f.maxPrice.value)
  }

  function SelectedBy(f: Filters): Product -> bool {
    (p: Product) => Selected(p, f)
  }

  /** A filter stage that runs only when its parameter is given is a filter by
      "not given, or matches". */
  lemma StageIsFilter(s: seq<Product>, given: bool, p: Product -> bool, g: Product -> bool)
    requires forall x :: g(x) == (!given || p(x))
    ensures (if given then Filter(s, p) else s) == Filter(s, g)
  {
    if given {
      FilterExtensional(s, p, g);
    } else {
      FilterKeepsAll(s, g);
    }
  }

  /** The staged filters of the source select exactly the products that meet every supplied filter. */
  lemma FilteredIsSelection(catalog: seq<Product>, f: Filters)
    ensures Filtered(catalog, f) == Filter(catalog, SelectedBy(f))
  {
    var cT := StringTruthy(f.category);
    var sT := StringTruthy(f.subcategory);
    var qT := StringTruthy(f.search);
    var pT := NumberTruthy(f.minPrice) || NumberTruthy(f.maxPrice);
    var cP := CategoryMatch(TextOf(f.category));
    var sP := SubcategoryMatch(TextOf(f.subcategory));
    var qP := SearchMatch(ToLower(TextOf(f.search)));
    var pP := PriceMatch(f);
    var g1 := (x: Product) => !cT || cP(x);
    var g2 := (x: Product) => !sT || sP(x);
    var g3 := (x: Product) => !qT || qP(x);
    var g4 := (x: Product) => !pT || pP(x);
    var g12 := (x: Product) => g1(x) && g2(x);
    var g123 := (x: Product) => g12(x) && g3(x);
    var g1234 := (x: Product) => g123(x) && g4(x);

    StageIsFilter(catalog, cT, cP, g1);
    var s1 := Filter(catalog, g1);
    StageIsFilter(s1, sT, sP, g2);
    FilterFilter(catalog, g1, g2, g12);
    var s2 := Filter(catalog, g12);
    StageIsFilter(s2, qT, qP, g3);
    FilterFilter(catalog, g12, g3, g123);
    var s3 := Filter(catalog, g123);
    StageIsFilter(s3, pT, pP, g4);
    FilterFilter(catalog, g123, g4, g1234);
    forall x: Product
      ensures g1234(x) == SelectedBy(f)(x)
    {
      assert g1234(x) == (g1(x) && g2(x) && g3(x) && g4(x));
      assert g1(x) == (cT ==> RefMatches(x.category, f.category.value));
      assert g2(x) == (sT ==> RefMatches(x.subcategory, f.subcategory.value));
      assert g3(x) == (qT ==> SearchHits(x, ToLower(f.search.value)));
    }
    FilterExtensional(catalog, g1234, SelectedBy(f));
  }

  /** The products meeting every supplied filter, in catalogue order. */
  function Matching(catalog: seq<Product>, f: Filters): seq<Product> {
    Filter(catalog, SelectedBy(f))
  }

  /** A query paginates exactly the products that meet every supplied filter. */
  lemma QueryIsPageOfMatching(catalog: seq<Product>, f: Filters)
    ensures QueryProducts(catalog, f) == Paginate(Matching(catalog, f), f.page, f.limit)
  {
    FilteredIsSelection(catalog, f);
  }

  /** `page` and `limit` default to 1 and 10 when absent or zero, so neither is ever
      zero, and `total` counts every item before paging. */
  lemma PaginateDefaults(items: seq<Product>, pageArg: Option<int>, limitArg: Option<int>)
    ensures var r := Paginate(items, pageArg, limitArg);
            && r.page == (if NumberTruthy(pageArg) then pageArg.value else 1)
            && r.limit == (if NumberTruthy(limitArg) then limitArg.value else 10)
            && r.page != 0 && r.limit != 0
            && r.total == |items|
  {
  }

  /** A page holds only items of the paginated sequence, never more than `total`,
      and never more than a positive `limit`. */
  lemma PaginateBounds(items: seq<Product>, pageArg: Option<int>, limitArg: Option<int>)
    ensures var r := Paginate(items, pageArg, limitArg);
            && (forall x :: x in r.products ==> x in items)
            && |r.products| <= r.total
            && (r.limit > 0 ==> |r.products| <= r.limit)
  {
    var r := Paginate(items, pageArg, limitArg);
    var skip := Skip(r.page, r.limit);
    forall x | x in r.products
      ensures x in items
    {
      SliceElement(items, skip, skip + r.limit, x);
    }
    if r.limit > 0 {
      SliceLength(items, skip, r.limit);
    } else {
      SliceLength(items, 0, 0);
    }
  }

  /** For a positive page and limit the page is exactly `items[skip .. skip + limit]`, cut at the end of the items. */
  lemma PaginatePositive(items: seq<Product>, pageArg: Option<int>, limitArg: Option<int>)
    ensures var r := Paginate(items, pageArg, limitArg);
            var skip := Skip(r.page, r.limit);
            r.page >= 1 && r.limit >= 1 ==>
              r.products == items[(if skip <= |items| then skip else |items|)
                                  ..(if skip + r.limit <= |items| then skip + r.limit else |items|)]
  {
    var r := Paginate(items, pageArg, limitArg);
    if r.page >= 1 && r.limit >= 1 {
      var skip := Skip(r.page, r.limit);
      SliceNonNegative(items, skip, skip + r.limit);
    }
  }

  /** Every product a query returns is in the catalogue and meets every supplied filter,
      a page holds at most `limit` of them, and `total` counts all that match. */
  lemma QueryReturnsOnlySelected(catalog: seq<Product>, f: Filters)
    ensures var r := QueryProducts(catalog, f);
            && (forall x :: x in r.products ==> x in catalog && Selected(x, f))
            && r.total == |Matching(catalog, f)|
            && |r.products| <= r.total
            && (r.limit > 0 ==> |r.products| <= r.limit)
  {
    QueryIsPageOfMatching(catalog, f);
    PaginateBounds(Matching(catalog, f), f.page, f.limit);
    FilterMembership(catalog, SelectedBy(f));
    var r := QueryProducts(catalog, f);
    forall x | x in r.products
      ensures Selected(x, f)
    {
      assert SelectedBy(f)(x);
    }
  }

  /** With no filters and default paging the whole mock catalogue comes back, in order. */
  lemma NoFiltersReturnsWholeCatalogue()
    ensures GetMockProducts(NoFilters) == ProductPage(MockProducts, 3, 1, 10)
  {
    assert Slice(MockProducts, 0, 10) == MockProducts[0..3];
  }

  /** Electronics at 500.00 or more: only the laptop, since the smartphone's
      effective (discounted) price is 499.99. */
  lemma ElectronicsFromFiveHundred()
    ensures var r := GetMockProducts(NoFilters.(category := Some("electronics"), minPrice := Some(50000)));
            r.products == [Laptop] && r.total == 1
  {
    var f := NoFilters.(category := Some("electronics"), minPrice := Some(50000));
    var cm := CategoryMatch("electronics");
    assert Filter([TShirt], cm) == [] by {
      assert [TShirt][1..] == [];
    }
    assert Filter([Laptop, TShirt], cm) == [Laptop] by {
      assert [Laptop, TShirt][1..] == [TShirt];
    }
    assert Filter(MockProducts, cm) == [Smartphone, Laptop] by {
      assert MockProducts[1..] == [Laptop, TShirt];
    }
    var pm := PriceMatch(f);
    assert Filter([Laptop], pm) == [Laptop] by {
      assert [Laptop][1..] == [];
    }
    assert Filter([Smartphone, Laptop], pm) == [Laptop] by {
      assert [Smartphone, Laptop][1..] == [Laptop];
    }
    assert Slice([Laptop], 0, 10) == [Laptop];
  }

  /** Searching ignores the case of the search term. */
  lemma SearchIgnoresCase(catalog: seq<Product>, f: Filters, term: string)
    ensures QueryProducts(catalog, f.(search := Some(term)))
         == QueryProducts(catalog, f.(search := Some(ToLower(term))))
  {
    ToLowerIdempotent(term);
  }

  // ---------------------------------------------------------------------------
  // getMockProductBySlug, getMockCategoryBySlug

  /** `getMockProductBySlug`: the first mock product with that slug, or null. */
  function MockProductBySlug(slug: string): (r: Option<Product>)
    ensures r.Some? ==> r.value in MockProducts && r.value.slug == slug
    ensures r.None? <==> forall p :: p in MockProducts ==> p.slug != slug
  {
    Find(MockProducts, (p: Product) => p.slug == slug)
  }

  /** `getMockCategoryBySlug`: the first mock category with that slug, or null. */
  function MockCategoryBySlug(slug: string): (r: Option<Category>)
    ensures r.Some? ==> r.value in MockCategories && r.value.slug == slug
    ensures r.None? <==> forall c :: c in MockCategories ==> c.slug != slug
  {
    Find(MockCategories, (c: Category) => c.slug == slug)
  }

  /** Looking up any mock product by its own slug finds that very product. */
  lemma ProductSlugRoundTrip(i: nat)
    requires i < |MockProducts|
    ensures MockProductBySlug(MockProducts[i].slug) == Some(MockProducts[i])
  {
    var slug := MockProducts[i].slug;
    var k := FirstIndex(MockProducts, (p: Product) => p.slug == slug);
    assert k.Some? && MockProducts[k.value].slug == slug;
    assert k.value == i;
  }

  /** Looking up any mock category by its own slug finds that very category. */
  lemma CategorySlugRoundTrip(i: nat)
    requires i < |MockCategories|
    ensures MockCategoryBySlug(MockCategories[i].slug) == Some(MockCategories[i])
  {
    var slug := MockCategories[i].slug;
    var k := FirstIndex(MockCategories, (c: Category) => c.slug == slug);
    assert k.Some? && MockCategories[k.value].slug == slug;
    assert k.value == i;
  }
}

=== FILE: constants.dfy ===
/** The cookie options and the enumerated value lists (src/utils/constant.js). */
module Constants {
  import opened Wrappers
  import opened Seqs

  datatype CookieOptions = CookieOptions(httpOnly: bool, secure: bool, sameSite: string, path: string, maxAge: int)

  /** Seven days, in milliseconds. */
  const CookieMaxAgeMs: int := 7 * 24 * 60 * 60 * 1000

  /** `getCookieOptions`, as a function of `NODE_ENV`: cross-site, secure cookies in
      production, same-site (`Lax`) cookies elsewhere. */
  function GetCookieOptions(nodeEnv: Option<string>): (r: CookieOptions)
    ensures r.secure <==> nodeEnv == Some("production")
    ensures r.sameSite == (if nodeEnv == Some("production") then "None" else "Lax")
    ensures r.httpOnly && r.path == "/"
    ensures r.maxAge == 604800000
  {
    var isProd := nodeEnv == Some("production");
    CookieOptions(true, isProd, if isProd then "None" else "Lax", "/", CookieMaxAgeMs)
  }

  /** Browsers reject `SameSite=None` without `Secure`; the options never pair them wrongly. */
  lemma SameSiteNoneIsSecure(nodeEnv: Option<string>)
    ensures GetCookieOptions(nodeEnv).sameSite == "None" ==> GetCookieOptions(nodeEnv).secure
    ensures GetCookieOptions(nodeEnv).sameSite in {"None", "Lax"}
  {
  }

  const AvailableUserRoles: seq<string> := ["admin", "customer", "seller"]
  const AvailablePaymentModes: seq<string> := ["cod", "netbanking", "upi", "card", "online", "pickup"]
  const AvailableOrderStatus: seq<string> := ["Shipped", "Delivered", "Processing", "Cancelled"]
  const AvailablePaymentStatus: seq<string> := ["pending", "success", "failed", "refunded"]

  /** The value lists: their sizes, their distinctness, and the members callers rely on. */
  lemma ValueListsAreDistinct()
    ensures |AvailableUserRoles| == 3 && NoDuplicates(AvailableUserRoles)
    ensures |AvailablePaymentModes| == 6 && NoDuplicates(AvailablePaymentModes) && "pickup" in AvailablePaymentModes
    ensures |AvailableOrderStatus| == 4 && NoDuplicates(AvailableOrderStatus)
    ensures |AvailablePaymentStatus| == 4 && NoDuplicates(AvailablePaymentStatus)
  {
  }
}

=== FILE: http.dfy ===
/**
 The HTTP boundary as the handlers see it: an `ApiResponse` envelope sent with a
 status, or an exception that escapes the handler and is passed on by
 `asyncHandler` to the application's error middleware (not part of this model).
 */
module Http {
  import opened Wrappers

  /** An exception escaping a handler. */
  datatype Thrown =
    | ApiError(status: int, message: string)    // `throw new ApiError(status, message)`
    | ReferenceError(name: string)              // reading a name that is not in scope

  /** What a handler does with the request: respond with `{statusCode, data, message}`, or raise. */
  datatype Reply<+D> =
    | Respond(status: int, data: D, message: string)
    | Raise(error: Thrown)

  /** `!process.env.MONGO_URI || process.env.MONGO_URI === ""` is false: a connection string is set. */
  predicate DbConfigured(mongoUri: Option<string>): (b: bool)
    ensures b <==> mongoUri.Some? && |mongoUri.value| > 0
  {
    mongoUri.Some? && mongoUri.value != ""
  }
}

=== FILE: js.dfy ===
/**
 The few JavaScript built-ins the modelled code relies on, with the
 semantics of the language rather than of Dafny: truthiness of optional
 strings and numbers, the `x || d` default idiom, `startsWith`, `includes`,
 `toLowerCase` (on the ASCII letters) and `Array.prototype.slice`.
 */
module Js {
  import opened Wrappers

  /** An optional string is truthy when it is present and not empty. */
  predicate StringTruthy(o: Option<string>) {
    o.Some? && o.value != ""
  }

  /** An optional (already parsed) number is truthy when it is present and not zero. */
  predicate NumberTruthy(o: Option<int>) {
    o.Some? && o.value != 0
  }

  /** The value of an optional string, or the empty string when absent. */
  function TextOf(o: Option<string>): string {
    if o.Some? then o.value else ""
  }

  /** `Number(x) || d`: the number when it is truthy, else the default. */
  function NumberOr(o: Option<int>, d: int): (r: int)
    ensures NumberTruthy(o) ==> r == o.value
    ensures !NumberTruthy(o) ==> r == d
  {
    if NumberTruthy(o) then o.value else d
  }

  /** `s.startsWith(prefix)`. */
  predicate StartsWith(s: string, prefix: string) {
    |prefix| <= |s| && s[..|prefix|] == prefix
  }

  /** `needle` occurs in `hay` starting at index `i`. */
  predicate OccursAt(hay: string, needle: string, i: int) {
    0 <= i && i + |needle| <= |hay| && hay[i..i + |needle|] == needle
  }

  /** `hay.includes(needle)`, computed by trying every start position from the left. */
  function Includes(hay: string, needle: string): bool
    decreases |hay|
  {
    StartsWith(hay, needle) || (|hay| > 0 && Includes(hay[1..], needle))
  }

  /** `Includes` holds exactly when the needle occurs at some position of the haystack. */
  lemma {:induction false} IncludesIffOccurs(hay: string, needle: string)
    ensures Includes(hay, needle) <==> exists i :: OccursAt(hay, needle, i)
    decreases |hay|
  {
    if StartsWith(hay, needle) {
      assert OccursAt(hay, needle, 0);
    } else if |hay| > 0 {
      var tail := hay[1..];
      IncludesIffOccurs(tail, needle);
      forall i | OccursAt(tail, needle, i)
        ensures OccursAt(hay, needle, i + 1)
      {
        assert tail[i..i + |needle|] == hay[i + 1..i + 1 + |needle|];
      }
      forall i | 0 < i && OccursAt(hay, needle, i)
        ensures OccursAt(tail, needle, i - 1)
      {
        assert tail[i - 1..i - 1 + |needle|] == hay[i..i + |needle|];
      }
    }
  }

  /** The lower-case form of an ASCII upper-case letter; every other character is kept. */
  function LowerChar(c: char): char {
    if 'A' <= c <= 'Z' then (c as int + 32) as char else c
  }

  /** `s.toLowerCase()`, restricted to the ASCII letters. */
  function ToLower(s: string): (r: string)
    ensures |r| == |s|
    ensures forall i :: 0 <= i < |s| ==> r[i] == LowerChar(s[i])
  {
    if |s| == 0 then [] else [LowerChar(s[0])] + ToLower(s[1..])
  }

  /** Lower-casing twice is lower-casing once. */
  lemma ToLowerIdempotent(s: string)
    ensures ToLower(ToLower(s)) == ToLower(s)
  {
    var once := ToLower(s);
    var twice := ToLower(once);
    assert forall i :: 0 <= i < |s| ==> twice[i] == once[i];
  }

  /** Where a relative `slice` index lands in an array of length `len`: a negative
      index counts back from the end, and the result is clamped to `[0, len]`. */
  function ClampIndex(i: int, len: nat): (k: nat)
    ensures k <= len
    ensures 0 <= i <= len ==> k == i
    ensures i > len ==> k == len
    ensures i < 0 ==> k == if len + i < 0 then 0 else len + i
  {
    if i < 0 then (if len + i < 0 then 0 else len + i)
    else if i > len then len
    else i
  }

  /** `s.slice(start, end)`. */
  function Slice<T>(s: seq<T>, start: int, end: int): seq<T>
  {
    var a := ClampIndex(start, |s|);
    var b := ClampIndex(end, |s|);
    if a < b then s[a..b] else []
  }

  /** For non-negative bounds `slice` is the ordinary sub-sequence, cut off at the end of `s`. */
  lemma SliceNonNegative<T>(s: seq<T>, start: int, end: int)
    requires 0 <= start <= end
    ensures var a := if start <= |s| then start else |s|;
            var b := if end <= |s| then end else |s|;
            Slice(s, start, end) == s[a..b]
  {
  }

  /** A slice never holds more than `count` elements when it is asked for `count`
      elements from any start, negative or not, and never more than `s` has. */
  lemma SliceLength<T>(s: seq<T>, start: int, count: nat)
    ensures |Slice(s, start, start + count)| <= count
    ensures |Slice(s, start, start + count)| <= |s|
  {
  }

  /** Whatever a slice holds, the sliced sequence holds. */
  lemma SliceElement<T>(s: seq<T>, start: int, end: int, x: T)
    requires x in Slice(s, start, end)
    ensures x in s
  {
    var a := ClampIndex(start, |s|);
    var b := ClampIndex(end, |s|);
    var k :| 0 <= k < b - a && s[a..b][k] == x;
    assert s[a + k] == x;
  }
}

=== FILE: offer.dfy ===
/**
 The 15-minute flash offer (src/controllers/offer.controller.js): a single
 offer document, created or overwritten by an upsert on the empty filter,
 that expires lazily when it is read. The offers collection is a sequence of
 documents in natural order, the clock reading `now` (milliseconds) is an
 input, and `fault` says which store operation, if any, throws.
 */
module FlashOffer {
  import opened Wrappers
  import opened Js
  import opened Http

  /** How long a started offer lasts: 15 minutes, in milliseconds. */
  const OfferWindowMs: int := 15 * 60 * 1000

  datatype Offer = Offer(
    isActive: bool,
    discountPercent: int,
    maxDiscountAmount: int,
    startedAt: int,
    expiresAt: int)

  /** The offers collection. The handlers keep it to at most one document. */
  type OfferStore = seq<Offer>

  /** The `data` of a reply: `{isActive: false}`, an offer document, or `{}`. */
  datatype OfferBody = Inactive | Doc(offer: Offer) | EmptyObject

  /** Which store operation throws during a call: none, the read, or the write. */
  datatype Fault = NoFault | ReadFails | WriteFails

  /** The request body of `startOffer`, numbers already parsed. */
  datatype StartRequest = StartRequest(discountPercent: Option<int>, maxDiscountAmount: Option<int>)

  /** A handler's reply together with the collection after the call. */
  datatype Step = Step(reply: Reply<OfferBody>, store: OfferStore)

  /** An offer is served while it is active and its expiry is not before `now`. */
  predicate IsLive(o: Offer, now: int) {
    o.isActive && !(o.expiresAt < now)
  }

  /** At most one offer document exists. */
  predicate Singleton(store: OfferStore) {
    |store| <= 1
  }

  /** The documents after the first one. */
  function Rest(store: OfferStore): OfferStore {
    if |store| == 0 then [] else store[1..]
  }

  /** The handler answered with an offer document. */
  predicate ServesOffer(s: Step) {
    s.reply.Respond? && s.reply.data.Doc?
  }

  const RequiredMessage := "Both discount percent and max discount are required"

  /** `startOffer`: validate, then upsert `{isActive, discountPercent, maxDiscountAmount,
      startedAt, expiresAt}` into the first document, or insert it when there is none. */
  function StartOffer(req: StartRequest, mongoUri: Option<string>, store: OfferStore, now: int, fault: Fault): (r: Step)
    ensures !NumberTruthy(req.discountPercent) || !NumberTruthy(req.maxDiscountAmount) ==>
              r == Step(Raise(ApiError(400, RequiredMessage)), store)
    ensures NumberTruthy(req.discountPercent) && NumberTruthy(req.maxDiscountAmount) ==>
              r.reply.Respond? && r.reply.status == 200
    ensures r.reply.Respond? && r.reply.data.Inactive? ==> r.store == store
    ensures r.reply.Respond? && r.reply.data.Doc? <==>
              NumberTruthy(req.discountPercent) && NumberTruthy(req.maxDiscountAmount)
              && DbConfigured(mongoUri) && fault == NoFault
    ensures r.reply.Respond? && r.reply.data.Doc? ==>
              && r.reply.data.offer == Offer(true, req.discountPercent.value, req.maxDiscountAmount.value,
                                             now, now + 900000)
              && r.store == [r.reply.data.offer] + Rest(store)
    ensures NumberTruthy(req.discountPercent) && NumberTruthy(req.maxDiscountAmount)
            && !(DbConfigured(mongoUri) && fault == NoFault) ==>
              r.reply.data == Inactive && r.store == store
  {
    if !NumberTruthy(req.discountPercent) || !NumberTruthy(req.maxDiscountAmount) then
      Step(Raise(ApiError(400, RequiredMessage)), store)
    else if !DbConfigured(mongoUri) then
      Step(Respond(200, Inactive, "Database not configured"), store)
    else if fault != NoFault then
      Step(Respond(200, Inactive, "Offer service unavailable"), store)
    else
      var offer := Offer(true, req.discountPercent.value, req.maxDiscountAmount.value, now, now + OfferWindowMs);
      var updated := if |store| == 0 then [offer] else [offer] + store[1..];
      assert updated == [offer] + Rest(store);
      Step(Respond(200, Doc(offer), "Flash offer started"), updated)
  }

  /** `getActiveOffer`: serve the first offer while it is live; otherwise answer
      `{isActive: false}` and, when an offer exists, persist `isActive = false`. */
  function GetActiveOffer(mongoUri: Option<string>, store: OfferStore, now: int, fault: Fault): (r: Step)
    ensures r.reply.Respond? && r.reply.status == 200
    ensures r.reply.data.Doc? <==>
              DbConfigured(mongoUri) && fault != ReadFails && |store| > 0 && IsLive(store[0], now)
    ensures r.reply.data.Doc? ==> r.reply.data.offer == store[0] && r.store == store
    ensures !r.reply.data.Doc? ==> r.reply.data == Inactive
    ensures |r.store| == |store| && Rest(r.store) == Rest(store)
    ensures |store| > 0 ==> r.store[0] == store[0] || r.store[0] == store[0].(isActive := false)
    ensures DbConfigured(mongoUri) && fault == NoFault && |store| > 0 && r.reply.data.Inactive? ==>
              !r.store[0].isActive
    ensures !DbConfigured(mongoUri) || fault != NoFault ==> r.store == store
  {
    if !DbConfigured(mongoUri) then
      Step(Respond(200, Inactive, "Database not configured"), store)
    else if fault == ReadFails || |store| == 0 then
      Step(Respond(200, Inactive, "No active offer"), store)
    else
      var offer := store[0];
      if !offer.isActive || offer.expiresAt < now then
        var saved := if fault != NoFault then store else [offer.(isActive := false)] + store[1..];
        Step(Respond(200, Inactive, "No active offer"), saved)
      else
        Step(Respond(200, Doc(offer), "Active offer"), store)
  }

  /** `deleteOffer`: remove every offer document; the reply is always 200 with `{}`. */
  function DeleteOffer(mongoUri: Option<string>, store: OfferStore, fault: Fault): (r: Step)
    ensures r.reply.Respond? && r.reply.status == 200 && r.reply.data == EmptyObject
    ensures DbConfigured(mongoUri) && fault == NoFault ==> r.store == []
    ensures !(DbConfigured(mongoUri) && fault == NoFault) ==> r.store == store
  {
    if !DbConfigured(mongoUri) then
      Step(Respond(200, EmptyObject, "Database not configured"), store)
    else if fault != NoFault then
      Step(Respond(200, EmptyObject, "Offer service unavailable"), store)
    else
      Step(Respond(200, EmptyObject, "Offer deleted successfully"), [])
  }

  /** Every handler keeps the collection a singleton, and a successful start leaves exactly one offer. */
  lemma HandlersKeepSingleton(req: StartRequest, mongoUri: Option<string>, store: OfferStore, now: int, fault: Fault)
    requires Singleton(store)
    ensures Singleton(StartOffer(req, mongoUri, store, now, fault).store)
    ensures Singleton(GetActiveOffer(mongoUri, store, now, fault).store)
    ensures Singleton(DeleteOffer(mongoUri, store, fault).store)
    ensures ServesOffer(StartOffer(req, mongoUri, store, now, fault)) ==>
              |StartOffer(req, mongoUri, store, now, fault).store| == 1
  {
  }

  /** Starting twice leaves one offer carrying the second start's fields: the
      upsert overwrites, it never duplicates. */
  lemma RestartOverwrites(first: StartRequest, second: StartRequest, mongoUri: Option<string>,
                          store: OfferStore, t1: int, t2: int)
    requires Singleton(store)
    requires ServesOffer(StartOffer(first, mongoUri, store, t1, NoFault))
    requires NumberTruthy(second.discountPercent) && NumberTruthy(second.maxDiscountAmount)
    ensures var s1 := StartOffer(first, mongoUri, store, t1, NoFault).store;
            StartOffer(second, mongoUri, s1, t2, NoFault).store
              == [Offer(true, second.discountPercent.value, second.maxDiscountAmount.value, t2, t2 + 900000)]
  {
  }

  /** A started offer is served until its expiry instant inclusive, and after that
      the first read answers `{isActive: false}` and persists the expiry. */
  lemma OfferLifecycle(req: StartRequest, mongoUri: Option<string>, store: OfferStore, start: int, later: int)
    requires Singleton(store)
    requires ServesOffer(StartOffer(req, mongoUri, store, start, NoFault))
    requires start <= later
    ensures var s1 := StartOffer(req, mongoUri, store, start, NoFault).store;
            var read := GetActiveOffer(mongoUri, s1, later, NoFault);
            && (later <= start + 900000 ==> read.reply.data == Doc(s1[0]) && read.store == s1)
            && (later > start + 900000 ==> read.reply.data == Inactive && read.store == [s1[0].(isActive := false)])
  {
    var s1 := StartOffer(req, mongoUri, store, start, NoFault).store;
    assert |s1| == 1 && s1[0].expiresAt == start + 900000 && s1[0].isActive;
  }

  /** Reading twice at the same instant changes nothing the second time: lazy expiry
      is idempotent when reads run one after another. */
  lemma ReadIsIdempotent(mongoUri: Option<string>, store: OfferStore, now: int)
    ensures var first := GetActiveOffer(mongoUri, store, now, NoFault);
            GetActiveOffer(mongoUri, first.store, now, NoFault) == first
  {
  }

  /** Once the offer has been deleted, every read answers `{isActive: false}`. */
  lemma DeleteThenRead(mongoUri: Option<string>, store: OfferStore, now: int, fault: Fault)
    requires DbConfigured(mongoUri)
    ensures var cleared := DeleteOffer(mongoUri, store, NoFault).store;
            GetActiveOffer(mongoUri, cleared, now, fault) == Step(Respond(200, Inactive, "No active offer"), [])
  {
  }

  /** Without a database (no `MONGO_URI`, or an empty one), starting and reading both
      answer 200 `{isActive: false}` and create nothing, and deleting removes nothing. */
  lemma UnconfiguredIsInert(req: StartRequest, mongoUri: Option<string>, store: OfferStore, now: int, fault: Fault)
    requires !DbConfigured(mongoUri)
    requires NumberTruthy(req.discountPercent) && NumberTruthy(req.maxDiscountAmount)
    ensures StartOffer(req, mongoUri, store, now, fault) == Step(Respond(200, Inactive, "Database not configured"), store)
    ensures GetActiveOffer(mongoUri, store, now, fault) == Step(Respond(200, Inactive, "Database not configured"), store)
    ensures DeleteOffer(mongoUri, store, fault) == Step(Respond(200, EmptyObject, "Database not configured"), store)
  {
  }
}

=== FILE: seqs.dfy ===
/** Generic sequence functions: order-preserving filtering, first-match search, distinctness. */
module Seqs {
  import opened Wrappers

  /** `r` is obtained from `s` by deleting some elements, keeping the order of the rest. */
  ghost predicate IsSubsequence<T>(r: seq<T>, s: seq<T>)
    decreases |s|
  {
    if |s| == 0 then |r| == 0
    else (|r| > 0 && r[0] == s[0] && IsSubsequence(r[1..], s[1..])) || IsSubsequence(r, s[1..])
  }

  /** `Array.prototype.filter`: the elements of `s` satisfying `p`, in their order, each as often as in `s`. */
  function Filter<T>(s: seq<T>, p: T -> bool): (r: seq<T>)
    ensures |r| <= |s|
  {
    if |s| == 0 then []
    else
      var rest := Filter(s[1..], p);
      assert s == [s[0]] + s[1..];
      if p(s[0]) then [s[0]] + rest else rest
  }

  /** `Filter` keeps exactly the elements of `s` that satisfy `p`. */
  lemma {:induction false} FilterMembership<T>(s: seq<T>, p: T -> bool)
    ensures forall x :: x in Filter(s, p) ==> x in s && p(x)
    ensures forall x :: x in s && p(x) ==> x in Filter(s, p)
  {
    if |s| > 0 {
      FilterMembership(s[1..], p);
      assert s == [s[0]] + s[1..];
    }
  }

  /** `Filter` keeps the order of `s`, and keeps each selected element as often as `s` holds it. */
  lemma {:induction false} FilterKeepsOrderAndMultiplicity<T>(s: seq<T>, p: T -> bool)
    ensures IsSubsequence(Filter(s, p), s)
    ensures forall x :: x in s ==> multiset(Filter(s, p))[x] == if p(x) then multiset(s)[x] else 0
  {
    if |s| > 0 {
      var rest := Filter(s[1..], p);
      FilterKeepsOrderAndMultiplicity(s[1..], p);
      FilterMembership(s[1..], p);
      assert s == [s[0]] + s[1..];
      if p(s[0]) {
        assert ([s[0]] + rest)[1..] == rest;
      }
    }
  }

  /** Filtering by predicates that agree everywhere gives the same result. */
  lemma {:induction false} FilterExtensional<T>(s: seq<T>, p: T -> bool, q: T -> bool)
    requires forall x :: p(x) == q(x)
    ensures Filter(s, p) == Filter(s, q)
  {
    if |s| > 0 {
      FilterExtensional(s[1..], p, q);
    }
  }

  /** Filtering by a predicate every element satisfies changes nothing. */
  lemma {:induction false} FilterKeepsAll<T>(s: seq<T>, p: T -> bool)
    requires forall x :: p(x)
    ensures Filter(s, p) == s
  {
    if |s| > 0 {
      FilterKeepsAll(s[1..], p);
      assert s == [s[0]] + s[1..];
    }
  }

  /** Two successive filters are one filter by the conjunction of their predicates. */
  lemma {:induction false} FilterFilter<T>(s: seq<T>, p: T -> bool, q: T -> bool, both: T -> bool)
    requires forall x :: both(x) == (p(x) && q(x))
    ensures Filter(Filter(s, p), q) == Filter(s, both)
  {
    if |s| > 0 {
      FilterFilter(s[1..], p, q, both);
      var rest := Filter(s[1..], p);
      if p(s[0]) {
        assert Filter(s, p) == [s[0]] + rest;
        assert ([s[0]] + rest)[1..] == rest;
      }
    }
  }

  /** The index of the first element satisfying `p` (what `Array.prototype.findIndex` finds), if any. */
  function FirstIndex<T>(s: seq<T>, p: T -> bool): (r: Option<nat>)
    ensures r.Some? ==> r.value < |s| && p(s[r.value])
    ensures r.Some? ==> forall j :: 0 <= j < r.value ==> !p(s[j])
    ensures r.None? <==> forall j :: 0 <= j < |s| ==> !p(s[j])
  {
    if |s| == 0 then None
    else if p(s[0]) then Some(0)
    else
      match FirstIndex(s[1..], p)
      case None => None
      case Some(i) => Some(i + 1)
  }

  /** `Array.prototype.find`: the first element satisfying `p`, if any. */
  function Find<T>(s: seq<T>, p: T -> bool): (r: Option<T>)
    ensures r.Some? ==> r.value in s && p(r.value)
    ensures r.None? <==> forall x :: x in s ==> !p(x)
  {
    match FirstIndex(s, p)
    case None => None
    case Some(i) => Some(s[i])
  }

  /** No element occurs twice. */
  predicate NoDuplicates<T(==)>(s: seq<T>) {
    forall i, j :: 0 <= i < j < |s| ==> s[i] != s[j]
  }
}

=== FILE: sms.dfy ===
/**
 OTP delivery and checking through the Twilio Verify service (src/utils/sms.js).
 Before any provider call a pure decision is taken from the configuration:
 answer with a stand-in result when the client is not configured, raise when
 the Verify service id is missing or malformed, otherwise call the provider.
 The provider is an oracle from the request it is sent to the status it
 answers, or the error it throws.
 */
module Sms {
  import opened Wrappers
  import opened Js

  /** The environment variables the module reads. */
  datatype TwilioEnv = TwilioEnv(accountSid: Option<string>, authToken: Option<string>, serviceSid: Option<string>)

  /** What is sent to the Verify service: start a verification, or check a code. */
  datatype VerifyRequest =
    | Verification(service: string, to: string, channel: string)
    | VerificationCheck(service: string, to: string, code: Option<string>)

  /** The decision taken before any provider call: a settled outcome, or a request to send. */
  datatype Plan<+T> = Settled(outcome: Attempt<T>) | Call(request: VerifyRequest)

  const CountryPrefix := "+91"
  const MissingServiceSid := "Twilio Verify Service SID is not configured"
  const InvalidServiceSid := "Twilio Verify Service SID is invalid - must start with 'VA'"

  /** The Twilio client is created only from an account id starting with `AC` and a non-empty token. */
  predicate ClientConfigured(env: TwilioEnv): (b: bool)
    ensures b <==> && env.accountSid.Some? && |env.accountSid.value| >= 2
                   && env.accountSid.value[0] == 'A' && env.accountSid.value[1] == 'C'
                   && env.authToken.Some? && |env.authToken.value| > 0
  {
    StringTruthy(env.accountSid) && StartsWith(env.accountSid.value, "AC") && StringTruthy(env.authToken)
  }

  /** The Verify service id is present and starts with `VA`. */
  predicate ServiceSidValid(env: TwilioEnv) {
    StringTruthy(env.serviceSid) && StartsWith(env.serviceSid.value, "VA")
  }

  /** The checks both functions make on the service id, in order; `None` when it passes. */
  function ServiceSidProblem(env: TwilioEnv): (r: Option<string>)
    ensures r.None? <==> ServiceSidValid(env)
    ensures !StringTruthy(env.serviceSid) ==> r == Some(MissingServiceSid)
    ensures StringTruthy(env.serviceSid) && !ServiceSidValid(env) ==> r == Some(InvalidServiceSid)
  {
    if !StringTruthy(env.serviceSid) then Some(MissingServiceSid)
    else if !StartsWith(env.serviceSid.value, "VA") then Some(InvalidServiceSid)
    else None
  }

  /** The destination number: the Indian country prefix followed by the phone number. */
  function Destination(phone: string): (to: string)
    ensures StartsWith(to, "+91") && to[3..] == phone
  {
    CountryPrefix + phone
  }

  /** The decision `sendOtpSms` takes before calling the provider. */
  function SendPlan(env: TwilioEnv, phone: string): (p: Plan<string>)
    ensures !ClientConfigured(env) ==> p == Settled(Ok("pending"))
    ensures p.Call? <==> ClientConfigured(env) && ServiceSidValid(env)
    ensures p.Call? ==> p.request == Verification(env.serviceSid.value, Destination(phone), "sms")
    ensures ClientConfigured(env) && !ServiceSidValid(env) ==> p.Settled? && p.outcome.Threw?
  {
    if !ClientConfigured(env) then Settled(Ok("pending"))
    else match ServiceSidProblem(env)
      case Some(message) => Settled(Threw(message))
      case None => Call(Verification(env.serviceSid.value, Destination(phone), "sms"))
  }

  /** `sendOtpSms`: the status the provider reports, `"pending"` when the client is not
      configured, or an error. */
  function SendOtpSms(env: TwilioEnv, phone: string, provider: VerifyRequest -> Attempt<string>): (r: Attempt<string>)
    ensures !ClientConfigured(env) ==> r == Ok("pending")
    ensures ClientConfigured(env) && !ServiceSidValid(env) ==> r == Threw(ServiceSidProblem(env).value)
    ensures ClientConfigured(env) && ServiceSidValid(env) ==>
              var answer := provider(Verification(env.serviceSid.value, "+91" + phone, "sms"));
              && (answer.Ok? ==> r == answer)
              && (answer.Threw? ==> r == Threw("Failed to send OTP via Twilio Verify: " + answer.message))
  {
    match SendPlan(env, phone)
    case Settled(outcome) => outcome
    case Call(request) =>
      match provider(request)
      case Ok(status) => Ok(status)
      case Threw(message) => Threw("Failed to send OTP via Twilio Verify: " + message)
  }

  /** The decision `verifyOtpSms` takes before calling the provider; without a client any
      non-empty OTP is accepted. */
  function VerifyPlan(env: TwilioEnv, phone: string, otp: Option<string>): (p: Plan<bool>)
    ensures !ClientConfigured(env) ==> p == Settled(Ok(StringTruthy(otp)))
    ensures p.Call? <==> ClientConfigured(env) && ServiceSidValid(env)
    ensures p.Call? ==> p.request == VerificationCheck(env.serviceSid.value, Destination(phone), otp)
    ensures ClientConfigured(env) && !ServiceSidValid(env) ==> p.Settled? && p.outcome.Threw?
  {
    if !ClientConfigured(env) then Settled(Ok(StringTruthy(otp)))
    else match ServiceSidProblem(env)
      case Some(message) => Settled(Threw(message))
      case None => Call(VerificationCheck(env.serviceSid.value, Destination(phone), otp))
  }

  /** `verifyOtpSms`: whether the provider approved the code. */
  function VerifyOtpSms(env: TwilioEnv, phone: string, otp: Option<string>,
                        provider: VerifyRequest -> Attempt<string>): (r: Attempt<bool>)
    ensures !ClientConfigured(env) ==> r == Ok(StringTruthy(otp))
    ensures ClientConfigured(env) && !ServiceSidValid(env) ==> r == Threw(ServiceSidProblem(env).value)
    ensures ClientConfigured(env) && ServiceSidValid(env) ==>
              var answer := provider(VerificationCheck(env.serviceSid.value, "+91" + phone, otp));
              && (answer.Ok? ==> r == Ok(answer.value == "approved"))
              && (answer.Threw? ==> r == Threw("Failed to verify OTP via Twilio Verify: " + answer.message))
  {
    match VerifyPlan(env, phone, otp)
    case Settled(outcome) => outcome
    case Call(request) =>
      match provider(request)
      case Ok(status) => Ok(status == "approved")
      case Threw(message) => Threw("Failed to verify OTP via Twilio Verify: " + message)
  }

  /** An OTP is accepted exactly when the client is not configured and the OTP is
      non-empty, or everything is configured and the provider answers `"approved"`
      for this number and code. A provider error never turns into an answer. */
  lemma VerifyAcceptsIff(env: TwilioEnv, phone: string, otp: Option<string>,
                         provider: VerifyRequest -> Attempt<string>)
    ensures var check := VerificationCheck(TextOf(env.serviceSid), "+91" + phone, otp);
            && (VerifyOtpSms(env, phone, otp, provider) == Ok(true) <==>
                  (!ClientConfigured(env) && StringTruthy(otp))
                  || (ClientConfigured(env) && ServiceSidValid(env) && provider(check) == Ok("approved")))
            && (ClientConfigured(env) && ServiceSidValid(env) && provider(check).Threw? ==>
                  VerifyOtpSms(env, phone, otp, provider).Threw?)
            && (ClientConfigured(env) && !ServiceSidValid(env) ==>
                  VerifyOtpSms(env, phone, otp, provider) == Threw(ServiceSidProblem(env).value))
  {
  }

  /** The provider is consulted only with a configured client and a valid service id:
      otherwise the outcome is the same whatever the provider would do. */
  lemma ProviderOnlyWhenConfigured(env: TwilioEnv, phone: string, otp: Option<string>,
                                   p1: VerifyRequest -> Attempt<string>, p2: VerifyRequest -> Attempt<string>)
    requires !(ClientConfigured(env) && ServiceSidValid(env))
    ensures SendOtpSms(env, phone, p1) == SendOtpSms(env, phone, p2)
    ensures VerifyOtpSms(env, phone, otp, p1) == VerifyOtpSms(env, phone, otp, p2)
  {
  }
}

=== FILE: subcategory.dfy ===
/**
 The subcategory handlers (src/controllers/subcategory.controller.js) over
 an abstract store of subcategory and category records. Every handler first
 checks that a database is configured; every write failure, including the
 400/404 errors the handlers raise themselves, is caught and answered with
 500. Store operations are atomic: a handler whose store throws (`storeFails`)
 writes nothing. Slug generation, image upload, fresh ids and the clock are
 supplied as `Services`.
 */
module Subcategories {
  import opened Wrappers
  import opened Js
  import opened Seqs
  import opened Http
  import MockCatalog

  type Id = string

  datatype Subcategory = Subcategory(
    id: Id,
    name: string,
    slug: string,
    imgUrl: string,
    category: Id,
    isDeleted: bool,
    deletedAt: Option<int>,
    deletedBy: Option<Id>)

  datatype Category = Category(id: Id, name: string, slug: string, isDeleted: bool, subcategories: seq<Id>)

  /** The two collections the handlers touch, each in natural order. */
  datatype Db = Db(subcategories: seq<Subcategory>, categories: seq<Category>)

  /** A mock subcategory, with its category embedded as `{_id, name, slug}`. */
  datatype MockSubcategory = MockSubcategory(
    id: Id, name: string, slug: string, imgUrl: string, category: MockCatalog.Ref, isDeleted: bool)

  /** `mockSubcategories`. */
  const MockSubcategories: seq<MockSubcategory> := [
    MockSubcategory("mock-subcategory-1", "Mobile Phones", "mobile-phones", "", MockCatalog.Electronics, false),
    MockSubcategory("mock-subcategory-2", "Laptops", "laptops", "", MockCatalog.Electronics, false)
  ]

  /** The `data` of a reply. */
  datatype Body =
    | Null
    | Record(sub: Subcategory)
    | Records(subs: seq<Subcategory>)
    | MockRecord(mock: MockSubcategory)
    | MockRecords(mocks: seq<MockSubcategory>)

  datatype Step = Step(reply: Reply<Body>, db: Db)

  /** An uploaded file (`req.file`); its bytes matter only to the image host. */
  datatype ImageFile = ImageFile(originalName: string, mimeType: string)

  /** The collaborators whose internals are not modelled: `slugify`, `generateUniqueSlug`,
      `imagekit.upload` (which throws when the image host is not configured), the id the
      store assigns to a new record, the clock, and the signed-in user. */
  datatype Services = Services(
    slugify: string -> string,
    uniqueSlug: string -> string,
    upload: ImageFile -> Attempt<string>,
    freshId: Id,
    now: int,
    user: Id)

  /** The handler responded with this status. */
  predicate Succeeded(s: Step, status: int) {
    s.reply.Respond? && s.reply.status == status
  }

  const Unavailable := "Subcategory service unavailable"
  const NotConfigured := "Database not configured"

  /** The reply to a caught failure: 500 with no data, the store as it was. */
  function Failed(db: Db): Step {
    Step(Respond(500, Null, Unavailable), db)
  }

  /** The reply when no database is configured: 200 with no data, the store as it was. */
  function Unconfigured(db: Db): Step {
    Step(Respond(200, Null, NotConfigured), db)
  }

  // ---------------------------------------------------------------------------
  // Lookups: `findOne` returns the first record in natural order.

  /** The first live (not deleted) subcategory with this slug. */
  function LiveBySlug(subs: seq<Subcategory>, slug: string): (r: Option<nat>)
    ensures r.Some? ==> r.value < |subs| && subs[r.value].slug == slug && !subs[r.value].isDeleted
    ensures r.Some? ==> forall j :: 0 <= j < r.value ==> !(subs[j].slug == slug && !subs[j].isDeleted)
    ensures r.None? <==> forall j :: 0 <= j < |subs| ==> !(subs[j].slug == slug && !subs[j].isDeleted)
  {
    FirstIndex(subs, (s: Subcategory) => s.slug == slug && !s.isDeleted)
  }

  /** The first deleted subcategory with this slug. */
  function DeletedBySlug(subs: seq<Subcategory>, slug: string): (r: Option<nat>)
    ensures r.Some? ==> r.value < |subs| && subs[r.value].slug == slug && subs[r.value].isDeleted
    ensures r.Some? ==> forall j :: 0 <= j < r.value ==> !(subs[j].slug == slug && subs[j].isDeleted)
    ensures r.None? <==> forall j :: 0 <= j < |subs| ==> !(subs[j].slug == slug && subs[j].isDeleted)
  {
    FirstIndex(subs, (s: Subcategory) => s.slug == slug && s.isDeleted)
  }

  /** The first live category with this id. */
  function LiveCategory(cats: seq<Category>, id: Id): (r: Option<nat>)
    ensures r.Some? ==> r.value < |cats| && cats[r.value].id == id && !cats[r.value].isDeleted
    ensures r.None? <==> forall j :: 0 <= j < |cats| ==> !(cats[j].id == id && !cats[j].isDeleted)
  {
    FirstIndex(cats, (c: Category) => c.id == id && !c.isDeleted)
  }

  // ---------------------------------------------------------------------------
  // createSubCategory

  datatype CreateRequest = CreateRequest(name: string, slug: Option<string>, category: Id, file: Option<ImageFile>)

  /** The slug a new subcategory gets: the slugified incoming slug, or one generated from the name. */
  function ResolvedSlug(req: CreateRequest, svc: Services): string {
    if StringTruthy(req.slug) then svc.slugify(req.slug.value) else svc.uniqueSlug(req.name)
  }

  /** `createSubCategory`. */
  function CreateSubcategory(mongoUri: Option<string>, req: CreateRequest, db: Db, svc: Services, storeFails: bool): (r: Step)
    ensures !DbConfigured(mongoUri) ==> r == Unconfigured(db)
    ensures DbConfigured(mongoUri) ==> r.reply.Respond? && (r.reply.status == 201 || r == Failed(db))
    ensures r.reply.Respond? && r.reply.status == 201 <==>
              && DbConfigured(mongoUri) && !storeFails
              && LiveBySlug(db.subcategories, ResolvedSlug(req, svc)).None?
              && LiveCategory(db.categories, req.category).Some?
              && req.file.Some? && svc.upload(req.file.value).Ok?
    ensures r.reply.Respond? && r.reply.status == 201 ==>
              var created := Subcategory(svc.freshId, req.name, ResolvedSlug(req, svc),
                                         svc.upload(req.file.value).value, req.category, false, None, None);
              var k := LiveCategory(db.categories, req.category).value;
              && r.reply.data == Record(created)
              && r.db.subcategories == db.subcategories + [created]
              && |r.db.categories| == |db.categories|
              && r.db.categories[k].subcategories == db.categories[k].subcategories + [svc.freshId]
              && r.db.categories[k] == db.categories[k].(subcategories := r.db.categories[k].subcategories)
              && (forall j :: 0 <= j < |db.categories| && j != k ==> r.db.categories[j] == db.categories[j])
  {
    if !DbConfigured(mongoUri) then Unconfigured(db)
    else if storeFails then Failed(db)
    else
      var slug := ResolvedSlug(req, svc);
      if LiveBySlug(db.subcategories, slug).Some? then Failed(db)          // 400 "Slug already exists"
      else match LiveCategory(db.categories, req.category)
        case None => Failed(db)                                           // 404 "Parent category not found"
        case Some(k) =>
          if req.file.None? then Failed(db)                              // 400 "Subcategory image is required"
          else match svc.upload(req.file.value)
            case Threw(_) => Failed(db)
            case Ok(url) =>
              var created := Subcategory(svc.freshId, req.name, slug, url, req.category, false, None, None);
              var parent := db.categories[k];
              var cats := db.categories[k := parent.(subcategories := parent.subcategories + [created.id])];
              Step(Respond(201, Record(created), "Subcategory created successfully"),
                   Db(db.subcategories + [created], cats))
  }

  // ---------------------------------------------------------------------------
  // getSubcategories

  /** The list filter: live, and in the given category when one is given. */
  function Listed(category: Option<string>): Subcategory -> bool {
    (s: Subcategory) => !s.isDeleted && (!StringTruthy(category) || s.category == category.value)
  }

  /** `getSubcategories`; the population of the embedded category is not modelled. */
  function GetSubcategories(mongoUri: Option<string>, category: Option<string>, db: Db, storeFails: bool): (r: Reply<Body>)
    ensures r.Respond? && r.status == 200
    ensures !DbConfigured(mongoUri) || storeFails ==> r.data == MockRecords(MockSubcategories)
    ensures DbConfigured(mongoUri) && !storeFails ==> r.data.Records?
    ensures r.data.Records? ==> forall s :: s in r.data.subs ==>
              s in db.subcategories && !s.isDeleted && (StringTruthy(category) ==> s.category == category.value)
    ensures r.data.Records? ==> forall s :: s in db.subcategories ==>
              (!s.isDeleted && (StringTruthy(category) ==> s.category == category.value) ==> s in r.data.subs)
  {
    if !DbConfigured(mongoUri) || storeFails then
      Respond(200, MockRecords(MockSubcategories), "Subcategories fetched successfully (mock data)")
    else
      FilterMembership(db.subcategories, Listed(category));
      Respond(200, Records(Filter(db.subcategories, Listed(category))), "Subcategories fetched successfully")
  }

  /** The list keeps the store's order. */
  lemma ListKeepsOrder(mongoUri: Option<string>, category: Option<string>, db: Db)
    requires DbConfigured(mongoUri)
    ensures IsSubsequence(GetSubcategories(mongoUri, category, db, false).data.subs, db.subcategories)
  {
    FilterKeepsOrderAndMultiplicity(db.subcategories, Listed(category));
  }

  // ---------------------------------------------------------------------------
  // getSingleSubcategory

  /** `getSingleSubcategory` as written. On a miss or a store error the catch block
      reads `slug`, which was declared inside the `try` block and is out of scope
      there, so the handler raises a ReferenceError instead of serving a mock record. */
  function GetSingleSubcategory(mongoUri: Option<string>, slug: string, db: Db, storeFails: bool): (r: Reply<Body>)
    ensures !DbConfigured(mongoUri) ==> r == Respond(200, MockRecord(MockSubcategories[0]), "Subcategory fetched successfully (mock data)")
    ensures DbConfigured(mongoUri) && !storeFails && LiveBySlug(db.subcategories, slug).Some? ==>
              r == Respond(200, Record(db.subcategories[LiveBySlug(db.subcategories, slug).value]), "Subcategory fetched successfully")
    ensures DbConfigured(mongoUri) && (storeFails || LiveBySlug(db.subcategories, slug).None?) ==> r.Raise?
  {
    if !DbConfigured(mongoUri) then
      Respond(200, MockRecord(MockSubcategories[0]), "Subcategory fetched successfully (mock data)")
    else if storeFails then Raise(ReferenceError("slug"))
    else match LiveBySlug(db.subcategories, slug)
      case None => Raise(ReferenceError("slug"))
      case Some(i) => Respond(200, Record(db.subcategories[i]), "Subcategory fetched successfully")
  }

  /** As written, every entry to the catch block (a slug no live record has, or a store
      error) fails on the out-of-scope `slug`: neither the mock record nor the 404 the
      handler throws comes back. */
  lemma SingleMissRaisesReferenceError(mongoUri: Option<string>, slug: string, db: Db, storeFails: bool)
    requires DbConfigured(mongoUri)
    requires storeFails || LiveBySlug(db.subcategories, slug).None?
    ensures GetSingleSubcategory(mongoUri, slug, db, storeFails) == Raise(ReferenceError("slug"))
    ensures GetSingleSubcategory(mongoUri, slug, db, storeFails) != Raise(ApiError(404, "Subcategory not found"))
  {
  }

  /** `getSingleSubcategory` as its catch block evidently intends: on a miss or a
      store error, the mock subcategory with that slug, else 404. */
  function GetSingleSubcategoryIntended(mongoUri: Option<string>, slug: string, db: Db, storeFails: bool): (r: Reply<Body>)
    ensures !DbConfigured(mongoUri) ==> r == GetSingleSubcategory(mongoUri, slug, db, storeFails)
    ensures DbConfigured(mongoUri) && !storeFails && LiveBySlug(db.subcategories, slug).Some? ==>
              r == GetSingleSubcategory(mongoUri, slug, db, storeFails)
  {
    if !DbConfigured(mongoUri) then
      Respond(200, MockRecord(MockSubcategories[0]), "Subcategory fetched successfully (mock data)")
    else
      var found := if storeFails then None else LiveBySlug(db.subcategories, slug);
      match found
      case Some(i) => Respond(200, Record(db.subcategories[i]), "Subcategory fetched successfully")
      case None =>
        match Find(MockSubcategories, (m: MockSubcategory) => m.slug == slug)
        case Some(m) => Respond(200, MockRecord(m), "Subcategory fetched successfully (mock data)")
        case None => Raise(ApiError(404, "Subcategory not found"))
  }

  /** The intended handler never leaks a scoping error: a miss is a mock record with
      exactly that slug, or a 404 when no mock record has it. */
  lemma IntendedMissIsMockOrNotFound(mongoUri: Option<string>, slug: string, db: Db, storeFails: bool)
    requires DbConfigured(mongoUri)
    requires storeFails || LiveBySlug(db.subcategories, slug).None?
    ensures var r := GetSingleSubcategoryIntended(mongoUri, slug, db, storeFails);
            && (r.Respond? ==> r.status == 200 && r.data.MockRecord? && r.data.mock in MockSubcategories
                               && r.data.mock.slug == slug)
            && (r.Raise? <==> forall m :: m in MockSubcategories ==> m.slug != slug)
            && (r.Raise? ==> r.error == ApiError(404, "Subcategory not found"))
  {
  }

  // ---------------------------------------------------------------------------
  // updateSubcategory

  datatype UpdateRequest = UpdateRequest(name: Option<string>, category: Option<string>, file: Option<ImageFile>)

  /** `updateSubcategory`: on the first live record with the slug, set the name when a
      name is given, the category when it names a live category, the image when a file is
      given; the record is saved only when every step succeeds. */
  function UpdateSubcategory(mongoUri: Option<string>, slug: string, req: UpdateRequest, db: Db, svc: Services, storeFails: bool): (r: Step)
    ensures !DbConfigured(mongoUri) ==> r == Unconfigured(db)
    ensures DbConfigured(mongoUri) ==> r.reply.Respond? && (r.reply.status == 200 || r == Failed(db))
    ensures r.reply.Respond? && r.reply.status == 200 && DbConfigured(mongoUri) <==>
              && DbConfigured(mongoUri) && !storeFails
              && LiveBySlug(db.subcategories, slug).Some?
              && (StringTruthy(req.category) ==> LiveCategory(db.categories, req.category.value).Some?)
              && (req.file.Some? ==> svc.upload(req.file.value).Ok?)
    ensures |r.db.subcategories| == |db.subcategories|
    ensures DbConfigured(mongoUri) && r.reply.status == 200 ==>
              var i := LiveBySlug(db.subcategories, slug).value;
              var stored := db.subcategories[i];
              var updated := r.db.subcategories[i];
              && r.reply.data == Record(updated)
              && r.db.categories == db.categories
              && (forall j :: 0 <= j < |db.subcategories| && j != i ==> r.db.subcategories[j] == db.subcategories[j])
              && updated.name == (if StringTruthy(req.name) then req.name.value else stored.name)
              && updated.category == (if StringTruthy(req.category) then req.category.value else stored.category)
              && updated.imgUrl == (if req.file.Some? then svc.upload(req.file.value).value else stored.imgUrl)
              && updated.id == stored.id && updated.slug == stored.slug && updated.isDeleted == stored.isDeleted
              && updated.deletedAt == stored.deletedAt && updated.deletedBy == stored.deletedBy
  {
    if !DbConfigured(mongoUri) then Unconfigured(db)
    else if storeFails then Failed(db)
    else match LiveBySlug(db.subcategories, slug)
      case None => Failed(db)                                             // 404 "Subcategory not found"
      case Some(i) =>
        var named := if StringTruthy(req.name) then db.subcategories[i].(name := req.name.value) else db.subcategories[i];
        if StringTruthy(req.category) && LiveCategory(db.categories, req.category.value).None? then
          Failed(db)                                                      // 404 "New parent category not found"
        else
          var moved := if StringTruthy(req.category) then named.(category := req.category.value) else named;
          if req.file.Some? && svc.upload(req.file.value).Threw? then Failed(db)
          else
            var updated := if req.file.Some? then moved.(imgUrl := svc.upload(req.file.value).value) else moved;
            Step(Respond(200, Record(updated), "Subcategory updated successfully"),
                 db.(subcategories := db.subcategories[i := updated]))
  }

  // ---------------------------------------------------------------------------
  // deleteSubcategory, restoreSubcategory

  /** `deleteSubcategory`: soft-delete the first live record with the slug. */
  function DeleteSubcategory(mongoUri: Option<string>, slug: string, db: Db, svc: Services, storeFails: bool): (r: Step)
    ensures !DbConfigured(mongoUri) ==> r == Unconfigured(db)
    ensures DbConfigured(mongoUri) ==> r.reply.Respond? && r.reply.data == Null
    ensures DbConfigured(mongoUri) && (storeFails || LiveBySlug(db.subcategories, slug).None?) ==> r == Failed(db)
    ensures DbConfigured(mongoUri) && !storeFails && LiveBySlug(db.subcategories, slug).Some? ==>
              var i := LiveBySlug(db.subcategories, slug).value;
              && r.reply.status == 200
              && r.db == db.(subcategories := db.subcategories[i := db.subcategories[i].(
                   isDeleted := true, deletedAt := Some(svc.now), deletedBy := Some(svc.user))])
  {
    if !DbConfigured(mongoUri) then Unconfigured(db)
    else if storeFails then Failed(db)
    else match LiveBySlug(db.subcategories, slug)
      case None => Failed(db)                                             // 404 "not found or already deleted"
      case Some(i) =>
        var sub := db.subcategories[i];
        var deleted := sub.(isDeleted := true, deletedAt := Some(svc.now), deletedBy := Some(svc.user));
        Step(Respond(200, Null, "Subcategory deleted successfully"),
             db.(subcategories := db.subcategories[i := deleted]))
  }

  /** `restoreSubcategory`: undo the soft delete of the first deleted record with the slug. */
  function RestoreSubcategory(mongoUri: Option<string>, slug: string, db: Db, storeFails: bool): (r: Step)
    ensures !DbConfigured(mongoUri) ==> r == Unconfigured(db)
    ensures DbConfigured(mongoUri) && (storeFails || DeletedBySlug(db.subcategories, slug).None?) ==> r == Failed(db)
    ensures DbConfigured(mongoUri) && !storeFails && DeletedBySlug(db.subcategories, slug).Some? ==>
              var i := DeletedBySlug(db.subcategories, slug).value;
              var restored := db.subcategories[i].(isDeleted := false, deletedAt := None, deletedBy := None);
              && r.reply == Respond(200, Record(restored), "Subcategory restored successfully")
              && r.db == db.(subcategories := db.subcategories[i := restored])
  {
    if !DbConfigured(mongoUri) then Unconfigured(db)
    else if storeFails then Failed(db)
    else match DeletedBySlug(db.subcategories, slug)
      case None => Failed(db)                                             // 404 "not found or not deleted"
      case Some(i) =>
        var restored := db.subcategories[i].(isDeleted := false, deletedAt := None, deletedBy := None);
        Step(Respond(200, Record(restored), "Subcategory restored successfully"),
             db.(subcategories := db.subcategories[i := restored]))
  }

  // ---------------------------------------------------------------------------
  // Lifecycle properties

  /** Deleting a live record and then restoring by the same slug brings that record
      back live with its name, slug, category and image untouched, provided no older
      deleted record shares the slug. A record that had never been deleted comes back
      exactly as it was, so the store is as before. */
  lemma DeleteThenRestore(mongoUri: Option<string>, slug: string, db: Db, svc: Services)
    requires DbConfigured(mongoUri)
    requires LiveBySlug(db.subcategories, slug).Some?
    requires forall j :: 0 <= j < LiveBySlug(db.subcategories, slug).value ==>
               !(db.subcategories[j].slug == slug && db.subcategories[j].isDeleted)
    ensures var i := LiveBySlug(db.subcategories, slug).value;
            var deleted := DeleteSubcategory(mongoUri, slug, db, svc, false).db;
            var restored := RestoreSubcategory(mongoUri, slug, deleted, false);
            && deleted.subcategories[i].isDeleted
            && restored.reply.Respond? && restored.reply.status == 200
            && restored.db.subcategories[i] == db.subcategories[i].(deletedAt := None, deletedBy := None)
            && (db.subcategories[i].deletedAt.None? && db.subcategories[i].deletedBy.None? ==> restored.db == db)
  {
    var i := LiveBySlug(db.subcategories, slug).value;
    var deleted := DeleteSubcategory(mongoUri, slug, db, svc, false).db;
    var k := DeletedBySlug(deleted.subcategories, slug);
    assert deleted.subcategories[i].slug == slug && deleted.subcategories[i].isDeleted;
    assert forall j :: 0 <= j < i ==> deleted.subcategories[j] == db.subcategories[j];
    assert k == Some(i);
    if db.subcategories[i].deletedAt.None? && db.subcategories[i].deletedBy.None? {
      assert RestoreSubcategory(mongoUri, slug, deleted, false).db.subcategories == db.subcategories;
    }
  }

  /** A created subcategory is served by its slug and appears in the unfiltered list. */
  lemma CreateThenRead(mongoUri: Option<string>, req: CreateRequest, db: Db, svc: Services)
    requires Succeeded(CreateSubcategory(mongoUri, req, db, svc, false), 201)
    ensures var created := CreateSubcategory(mongoUri, req, db, svc, false);
            && GetSingleSubcategory(mongoUri, ResolvedSlug(req, svc), created.db, false)
                 == Respond(200, created.reply.data, "Subcategory fetched successfully")
            && created.reply.data.sub in GetSubcategories(mongoUri, None, created.db, false).data.subs
  {
    var created := CreateSubcategory(mongoUri, req, db, svc, false);
    var subs := created.db.subcategories;
    var n := |db.subcategories|;
    assert subs[n] == created.reply.data.sub;
    var k := LiveBySlug(subs, ResolvedSlug(req, svc));
    assert forall j :: 0 <= j < n ==> subs[j] == db.subcategories[j];
    assert k == Some(n);
  }

  /** No two live subcategories share a slug. */
  ghost predicate LiveSlugsUnique(subs: seq<Subcategory>) {
    forall i, j :: 0 <= i < j < |subs| && !subs[i].isDeleted && !subs[j].isDeleted ==> subs[i].slug != subs[j].slug
  }

  /** Create keeps live slugs unique: it refuses a slug a live record already holds. */
  lemma CreateKeepsLiveSlugsUnique(mongoUri: Option<string>, req: CreateRequest, db: Db, svc: Services, storeFails: bool)
    requires LiveSlugsUnique(db.subcategories)
    ensures LiveSlugsUnique(CreateSubcategory(mongoUri, req, db, svc, storeFails).db.subcategories)
  {
    var created := CreateSubcategory(mongoUri, req, db, svc, storeFails);
    if Succeeded(created, 201) {
      var subs := created.db.subcategories;
      var n := |db.subcategories|;
      assert forall j :: 0 <= j < n ==> subs[j] == db.subcategories[j];
      assert subs[n].slug == ResolvedSlug(req, svc) && !subs[n].isDeleted;
    }
  }

  /** Update keeps live slugs unique: it never changes a slug or revives a record. */
  lemma UpdateKeepsLiveSlugsUnique(mongoUri: Option<string>, slug: string, req: UpdateRequest, db: Db, svc: Services, storeFails: bool)
    requires LiveSlugsUnique(db.subcategories)
    ensures LiveSlugsUnique(UpdateSubcategory(mongoUri, slug, req, db, svc, storeFails).db.subcategories)
  {
  }

  /** Delete keeps live slugs unique: it only retires a record. */
  lemma DeleteKeepsLiveSlugsUnique(mongoUri: Option<string>, slug: string, db: Db, svc: Services, storeFails: bool)
    requires LiveSlugsUnique(db.subcategories)
    ensures LiveSlugsUnique(DeleteSubcategory(mongoUri, slug, db, svc, storeFails).db.subcategories)
  {
  }

  /** Restore does not check slugs: restoring a record whose slug a live record has
      taken since leaves two live records with that slug. */
  lemma RestoreCanDuplicateLiveSlug()
    ensures var retired := Subcategory("s1", "Phones", "phones", "u1", "c1", true, Some(1), Some("admin"));
            var live := Subcategory("s2", "Phones", "phones", "u2", "c1", false, None, None);
            var db := Db([retired, live], []);
            && LiveSlugsUnique(db.subcategories)
            && !LiveSlugsUnique(RestoreSubcategory(Some("mongodb://db"), "phones", db, false).db.subcategories)
  {
    var retired := Subcategory("s1", "Phones", "phones", "u1", "c1", true, Some(1), Some("admin"));
    var live := Subcategory("s2", "Phones", "phones", "u2", "c1", false, None, None);
    var db := Db([retired, live], []);
    assert DeletedBySlug(db.subcategories, "phones") == Some(0);
    var after := RestoreSubcategory(Some("mongodb://db"), "phones", db, false).db.subcategories;
    assert !after[0].isDeleted && !after[1].isDeleted && after[0].slug == after[1].slug;
  }
}

=== FILE: wrappers.dfy ===
/** Failure-carrying datatypes shared by the whole model. */
module Wrappers {

  /** A value that may be absent: JavaScript's `undefined`/`null` versus a present value. */
  datatype Option<+T> = None | Some(value: T)

  /** The outcome of a call that may throw: the value it returned, or the message of the error it raised. */
  datatype Attempt<+T> = Ok(value: T) | Threw(message: string)
}
